=== FILE: README.md ===
# Queen Koba storefront: cart, checkout and pricing

A Dafny model of the core of the Queen Koba skincare storefront backend. The backend exists in two editions, one on a document store and one on a relational store. The model covers both editions' pricing engine, cart aggregate and checkout, and the relational edition's promotion-code validator. Everything is written as pure functions over immutable values:

- **Money** (`money.dfy`): amounts are exact `real`s. `Round2` is Python's `round(x, 2)` on the exact value: the nearest whole cent, with an exact half going to the even neighbour.
- **Pricing** (`pricing.dfy`): the closed currency set KES, UGX, BIF and CDF, with their fixed rates, symbols and country names. `CalculatePrices` builds a product's derived price map. `RateFor`/`SymbolFor` do the read-time conversion into a user's preferred currency: rate 1 and `$` for an unknown code, and KES when no preference is stored.
- **Carts** (`carts.dfy`): a cart is a `seq<Line>`. `Merge` is the add: the first line holding the product grows, otherwise a line is appended. `Remove` is a filter. `ResolvedTotal` is the live-price total. `Snapshot` turns the cart into line items at checkout, skipping lines whose product is gone. `StrictSnapshot` is the relational edition's all-or-nothing variant.
- **Orders** (`orders.dfy`): the order record and its 8-character code, cut from a random UUID and upper-cased.
- **DocumentEdition** (`document_edition.dfy`): user documents embed the cart and the list of order storage ids. Covers add, remove, cart view, checkout (which appends the order's storage id to the user's list) and the order detail with live currency conversion.
- **RelationalEdition** (`relational_edition.dfy`): one cart-items table shared by all users. `UserLines` gives a user's view of it. Covers add, cart view, and checkout, which deletes exactly that user's rows.
- **Promotions** (`promotions.dfy`): the ordered checks of promo-code validation.
- **Scenarios** (`scenarios.dfy`): concrete request sequences, and the agreement of the two editions when every product still exists.

Handler errors are `Result` values: `BadRequest` (400), `NotFound` (404), and `Internal` (500). `Internal` stands for an exception raised while handling the request. The document edition's handlers catch it in their own `except` and answer 500. The relational edition leaves it to the framework, which also answers 500. An `Err` carries no new store, so a refused request writes nothing.

Parameters stand in for the parts outside the model:
- the current time (`now`);
- the random UUID the order code is cut from (`uuidText`, any well-formed UUID text);
- the storage id the document store gives a new order (`ref`, required not to be in use).

Where the two editions differ, each is modelled as written:
- Only the document edition validates add requests: a missing or falsy id or quantity gets 400, and a missing user gets 404.
- Only the document edition skips cart lines whose product has gone. The relational edition reads `item.product` unconditionally, which raises, so the model answers `Internal` there.
- The relational add stores any quantity it is given, zero and negative ones included. The document add refuses only zero.

Quantities are never required to be positive. The `NegativeQuantityAccepted` scenario shows a cart with a negative total.

## Model

| member | source | states |
|---|---|---|
| Money.RoundHalfEven | queenkoba_postgresql.py:177 | the result is an integer within one half of the input, and the even one on an exact tie |
| Money.RoundHalfEvenUnique | queenkoba_postgresql.py:177 | exactly one integer meets the half-even rule, so rounding is fully determined |
| Money.Round2 | queenkoba_postgresql.py:177 | `round(x, 2)` gives a whole number of cents within half a cent of `x` |
| Money.Round2Monotone | queenkoba_postgresql.py:177 | for all amounts a ≤ b, the rounded a is at most the rounded b |
| Money.Round2OfCents | queenkoba_postgresql.py:358 | rounding an amount that is already a whole number of cents returns it unchanged |
| Pricing.ParseCurrency | queenkoba_mongodb.py:388-389 | a code is found in the rate table exactly when it is the code of one of the four currencies |
| Pricing.ParseCodeOf | queenkoba_mongodb.py:388-389 | looking up a currency's own code in the rate table finds that currency |
| Pricing.CalculatePrices | queenkoba_postgresql.py:159-187 | the price map has exactly the keys KES, UGX, BIF, CDF, each entry carrying that currency's symbol and country |
| Pricing.PriceAmount | queenkoba_postgresql.py:175-177 | each amount is the base price times the currency's rate, rounded to two places |
| Pricing.PriceMetadataFixed | queenkoba_postgresql.py:167-185 | symbol and country of an entry are the same whatever the base price |
| Pricing.PriceAmountExact | queenkoba_mongodb.py:52-55 | every amount is whole cents and within half a cent of the exact conversion |
| Pricing.PricesMonotone | queenkoba_mongodb.py:36-65 | a non-negative base price gives non-negative amounts, and a higher base price never a lower amount |
| Pricing.RateFor | queenkoba_mongodb.py:388-390 | the read-time rate is the table's rate for a known code and 1 for any other code |
| Pricing.SymbolFor | queenkoba_mongodb.py:399-404 | the read-time symbol is the currency's symbol for a known code and `$` otherwise |
| Pricing.PreferredCode | queenkoba_mongodb.py:387 | the stored preference is used as given, and a user with none gets a code that names KES |
| Pricing.Convert | queenkoba_mongodb.py:389-390 | an amount in a currency outside the table is converted at par |
| Pricing.ConvertIsProduct | queenkoba_mongodb.py:389-390 | conversion multiplies the USD amount by the named currency's rate |
| Pricing.ReadTimeAgreesWithPriceMap | queenkoba_mongodb.py:386-404 | the cart view's conversion table agrees with the stored price map in rate and symbol |
| Pricing.UnknownCurrencyAtPar | queenkoba_mongodb.py:619-629 | a preferred currency outside the table converts at par and shows `$` |
| Carts.FirstLine | queenkoba_mongodb.py:436-440 | the add loop stops at the first line holding the product, or finds none exactly when no line holds it |
| Carts.Merge | queenkoba_mongodb.py:436-447 | add grows the first matching line by the quantity and changes nothing else, or appends one new line when none matches |
| Carts.MergeQuantity | queenkoba_mongodb.py:436-447 | add raises the product's quantity by exactly the amount given and leaves every other product's quantity unchanged |
| Carts.MergeTwice | queenkoba_mongodb.py:436-447 | adding q1 then q2 of a product gives the same cart as adding q1 + q2 at the first time |
| Carts.RemoveAfterMerge | queenkoba_mongodb.py:436-447 | lines of every other product are exactly as before the add |
| Carts.MergeProductIds | queenkoba_mongodb.py:442-447 | add brings in the added product and no other |
| Carts.MergeKeepsDistinct | queenkoba_postgresql.py:369-375 | add never creates a second line for a product |
| Carts.Remove | queenkoba_mongodb.py:476-477 | remove leaves no line of the product; a line survives exactly when it held another product; an absent product leaves the cart unchanged |
| Carts.RemoveIdempotent | queenkoba_mongodb.py:476-477 | removing twice is removing once |
| Carts.RemoveAppend | queenkoba_mongodb.py:477 | remove filters a cart part by part, so surviving lines keep their order |
| Carts.RemoveQuantity | queenkoba_mongodb.py:477 | remove zeroes the removed product's quantity and keeps every other product's quantity |
| Carts.RemoveKeepsDistinct | queenkoba_mongodb.py:476-477 | remove never creates duplicate lines |
| Carts.DistinctCount | queenkoba_mongodb.py:455-458 | in a duplicate-free cart the line count is the number of distinct products |
| Carts.Resolving | queenkoba_mongodb.py:379-380 | the lines kept are at most the cart's lines, and every kept line's product is in the catalog |
| Carts.ResolvingMembers | queenkoba_mongodb.py:379-380 | a line is kept exactly when it is in the cart and its product resolves, and with every product present the whole cart is kept |
| Carts.ResolvedTotal | queenkoba_mongodb.py:378-383 | the live-price total: price times quantity summed over the lines whose product resolves |
| Carts.ResolvedTotalOfResolving | queenkoba_mongodb.py:378-383 | lines whose product is gone add nothing: the total equals the total of the resolving lines alone |
| Carts.Snapshot | queenkoba_mongodb.py:515-527 | one item per resolving line, in cart order, each carrying its product's catalog name and price with item_total = price × quantity; one per line exactly when every product resolves |
| Carts.SnapshotTotal | queenkoba_mongodb.py:512-519 | the items' totals add up to the live-price cart total |
| Carts.SnapshotAppend | queenkoba_mongodb.py:515-527 | items come out in cart order |
| Carts.StrictSnapshot | queenkoba_postgresql.py:391-403 | the snapshot succeeds exactly when every product resolves, and then has one item per line, in order, summing to the cart total |
| Text.Upper | queenkoba_postgresql.py:654 | upper-casing keeps the length and leaves no lower-case ASCII letter |
| Orders.OrderCode | queenkoba_postgresql.py:406 | the order code has 8 upper-case hex digits and is the UUID's first 8 characters, upper-cased |
| Orders.NewOrder | queenkoba_postgresql.py:405-414 | the new order carries the given items and total, the request's address and payment method when sent (an empty address and `card` when not), payment `pending`, status `processing`, and the current time as created_at |
| Orders.SameCodeIffSamePrefix | queenkoba_postgresql.py:406 | two orders get the same code exactly when their UUIDs share the first eight characters |
| DocumentEdition.GivenId | queenkoba_mongodb.py:419 | a product id counts as sent exactly when it is present and not empty |
| DocumentEdition.GivenQuantity | queenkoba_mongodb.py:419 | a quantity counts as sent exactly when it is present and not zero, so a negative one passes |
| DocumentEdition.AddToCart | queenkoba_mongodb.py:411-462 | 400 for a falsy id or quantity, then 404 for a missing product, then 404 for a missing user; on success the cart is the merge of the old cart with the added quantity, other users are untouched, and the count is the line count |
| DocumentEdition.AddPreservesValid | queenkoba_mongodb.py:436-458 | carts stay duplicate-free, so `cart_count` is the number of distinct products |
| DocumentEdition.AddAccumulates | queenkoba_mongodb.py:436-447 | add(p, q1) then add(p, q2) leaves the cart that add(p, q1 + q2) leaves |
| DocumentEdition.AddOfZeroSumRefused | queenkoba_mongodb.py:419-420 | adding q and then −q of a present product both succeed, but one add of their sum is refused with 400, so two adds do not always equal one add of the sum |
| DocumentEdition.RemoveFromCart | queenkoba_mongodb.py:464-492 | 404 for a missing user; otherwise the cart is the cart filtered by the product, so every line of the product goes and the rest keep their order, and removing an absent product leaves the cart as it was |
| DocumentEdition.RemoveTwice | queenkoba_mongodb.py:476-489 | a second remove of the same product changes neither cart nor count |
| DocumentEdition.RemovePreservesValid | queenkoba_mongodb.py:476-483 | remove keeps carts duplicate-free |
| DocumentEdition.ViewLines | queenkoba_mongodb.py:379-383 | each cart line is shown with its product when that resolves, and as stored otherwise |
| DocumentEdition.GetCart | queenkoba_mongodb.py:365-409 | 404 for a missing user; the lines are the cart's lines, each with its product when it resolves; the USD total sums only resolving lines; the local total converts at the preferred currency's rate (KES by default, 1 when unknown); both are rounded to cents |
| DocumentEdition.Checkout | queenkoba_mongodb.py:495-571 | 404 for a missing user, 400 for an empty cart; on success one item per resolving line, total = sum of item totals, items_count ≤ cart length, cart emptied, order id appended to the user's orders after the earlier ones; the stored order is the one built from the request's address and payment method, the UUID's code and the current time |
| DocumentEdition.CheckoutPreservesValid | queenkoba_mongodb.py:547-551 | checkout keeps carts duplicate-free |
| DocumentEdition.CheckoutTwiceRefused | queenkoba_mongodb.py:507-509 | a second checkout with no add in between is refused as an empty cart |
| DocumentEdition.CheckoutMatchesCartView | queenkoba_mongodb.py:512-527 | the order total, rounded, is the cart view's USD total; with every product present the order has one item per line in cart order |
| DocumentEdition.GetOrder | queenkoba_mongodb.py:599-637 | 404 unless the order exists and belongs to the user, 500 when the user record is missing; total_local = total_usd × the rate of the user's current preferred currency |
| DocumentEdition.OrderViewFollowsPreference | queenkoba_mongodb.py:617-629 | changing the preferred currency changes only the conversion, not the stored order |
| RelationalEdition.UserLines | queenkoba_postgresql.py:387 | a user's cart is the lines of that user's rows in table order, so it is never longer than the table |
| RelationalEdition.UserLinesMembers | queenkoba_postgresql.py:387 | a line is in a user's cart exactly when the table has a row of that user holding it |
| RelationalEdition.AddRow | queenkoba_postgresql.py:369-375 | an add changes the table by at most one new row |
| RelationalEdition.AddRowShape | queenkoba_postgresql.py:369-375 | the table grows by one row exactly when the user has no row for the product, and every row of another user or product is kept |
| RelationalEdition.AddRowIsMerge | queenkoba_postgresql.py:369-375 | the row-level add, seen through the user's cart, is the cart merge |
| RelationalEdition.AddRowKeepsOthers | queenkoba_postgresql.py:369-375 | an add leaves every other user's cart unchanged |
| RelationalEdition.DeleteUserRows | queenkoba_postgresql.py:417 | the bulk delete keeps exactly the rows of other users |
| RelationalEdition.DeleteUserRowsCarts | queenkoba_postgresql.py:416-418 | the delete empties this user's cart and no other |
| RelationalEdition.AddToCart | queenkoba_postgresql.py:361-379 | 500 for a missing product id, 404 for an unknown product, 500 for a missing quantity or an unknown user; on success the user's cart is merged and other users' carts are unchanged |
| RelationalEdition.AddPreservesValid | queenkoba_postgresql.py:369-375 | every user's cart stays duplicate-free |
| RelationalEdition.GetCart | queenkoba_postgresql.py:342-359 | every line listed with its product, total = sum of price × quantity rounded to cents; 500 if any product is gone |
| RelationalEdition.Checkout | queenkoba_postgresql.py:381-424 | 400 for an empty cart; 500 if a product is gone or an earlier order already has the code; otherwise one item per line in order, total = sum of item totals, the order built from the request, the UUID's code and the current time appended, only this user's rows deleted |
| RelationalEdition.CheckoutTwiceRefused | queenkoba_postgresql.py:387-389 | a second checkout with no add in between is refused as an empty cart |
| RelationalEdition.CheckoutKeepsCodesUnique | queenkoba_postgresql.py:93 | checkout keeps the order codes in the table pairwise distinct |
| Promotions.FindActive | queenkoba_postgresql.py:656 | the promotion found is active and stored under exactly the code asked for, and none is found exactly when no such promotion exists |
| Promotions.RequestedCode | queenkoba_postgresql.py:654 | a sent code is upper-cased, an absent field reads as the empty code, and the code looked up has no lower-case letter |
| Promotions.ValidatePromoCode | queenkoba_postgresql.py:651-671 | 404 when no active promotion has the code, else 400 if expired, else 400 if a non-zero limit is reached, else success with that promotion's code, discount and type |
| Promotions.ValidateIgnoresCase | queenkoba_postgresql.py:654-656 | sending a code in any letter case gives the same answer |
| Promotions.LowerCaseCodeNeverFound | queenkoba_postgresql.py:654-656 | a promotion stored with a lower-case letter in its code can never be found |
| Promotions.ExpiryIsFinal | queenkoba_postgresql.py:661-662 | a code refused as expired stays refused at every later time |
| Scenarios.ShillingsCartFilled | queenkoba_mongodb.py:436-447 | adding A ×2 then B ×1 gives two lines in that order |
| Scenarios.CheckoutInShillings | queenkoba_mongodb.py:617-629 | A at 10.00 ×2 plus B at 5.00 ×1 totals 25.00 USD, the order records 25.00 with 2 items, and the detail view shows 3212.50 KSh |
| Scenarios.AddSameProductTwice | queenkoba_mongodb.py:436-447 | adding 1 and then 3 of X leaves a single line of 4 |
| Scenarios.NegativeQuantityAccepted | queenkoba_mongodb.py:419 | a negative quantity passes the check, giving a negative cart total |
| Scenarios.EditionsAgreeOnCheckout | queenkoba_postgresql.py:391-413 | with every product present, the relational checkout succeeds exactly when the code is unused, and then both editions check out the same cart into the same order and total |

## Left out

- HTTP routing, JSON parsing and serialisation, CORS, configuration loading and health checks are left out: they are framework glue. A request body is modelled as the optional fields the handler reads.
- Password hashing, login and token issuance and verification are left out. The user id a token carries is a parameter.
- Storage engines, sessions, commits and ObjectId parsing are left out. Stores are maps and sequences. An ill-formed ObjectId string, which raises and gives 500, is not modelled. Products are keyed by the raw id string. The document edition looks a product up through `ObjectId(...)`, which accepts upper-case hex, but merges and removes by comparing the raw strings (queenkoba_mongodb.py:437, 477). So two spellings of one id make two cart lines. `DistinctProducts`, and "cart_count is the number of distinct products", therefore hold over id strings, not over products. Checkout records `str(product['_id'])` (queenkoba_mongodb.py:522), which can differ from the line's stored spelling. The model records the line's id.
- Python float arithmetic is left out. Amounts are exact reals, so an IEEE-754 rounding artefact such as `round(2.675, 2) == 2.67` is not reproduced.
- Money.Round2: rounds the exact value half-to-even. Python rounds the nearest binary float instead, so the two can differ on some decimal ties.
- Text.Upper: maps ASCII letters only. Python's `str.upper` also maps other Unicode letters and can change a string's length.
- Orders.OrderCode: the UUID is a parameter, and randomness is not modelled. The relational edition's order code column is unique, so a repeated code fails the commit with 500, and `RelationalEdition.Checkout` models that. The document edition has no such constraint, so two of its orders can share a code.
- DocumentEdition.Checkout: the order's storage id is a parameter and is required to be unused. The store guarantees that; it is not a check in the handler.
- Timestamps (`now`) are parameters. The model keeps a cart line's `added_at` in both editions, the user's `updated_at` in the document edition, and the order's `created_at` in both. In the relational edition the last is the column default set at insert. Other timestamps are not modelled, such as the document order's `updated_at`.
- Requests whose JSON body is missing, or whose code field is not a string (a null code, for instance), are left out. These raise and answer 500.
- Quantities are modelled as integers. In the document edition any truthy quantity passes the check at queenkoba_mongodb.py:419. A string such as `"2"`, or even `"0"`, passes. For a product with no line yet, it is appended and stored as given (queenkoba_mongodb.py:442-453), and the add answers 200. Only later does `base_price_usd * quantity` raise, in the cart view (queenkoba_mongodb.py:384) and in checkout (queenkoba_mongodb.py:518). Both then answer 500 for that user until the line is removed. A fractional quantity such as `1.5` also passes, and it is stored and summed as given. Neither case is modelled.
- A relational add whose `quantity` is JSON `null` is modelled like an absent quantity. The row-level outcome of storing a null quantity is not modelled.
- RelationalEdition.AddToCart: a missing user is modelled as the foreign-key failure at commit (500). Only the error kind is modelled, not the database's message.
- The relational `filter_by(...).all()` has no `ORDER BY`. The model reads a user's rows in table order.
- Promotions.ValidatePromoCode: a null `uses` count is not modelled. It would raise on comparison with the limit and answer 500.
- Concurrent requests are left out. Racing adds or checkouts on one user are a storage-level concern; every handler is modelled as one atomic step.
- Order listing, admin KPIs, product and zone edits, reviews, support tickets, shipping zones, site content, and promotion listing and creation are left out. They are plain storage CRUD.
- Seeding and startup are left out. `CalculatePrices` runs only when a product is created (queenkoba_postgresql.py:508) and when the store is seeded (queenkoba_postgresql.py:201, queenkoba_mongodb.py:131). The relational admin edit (queenkoba_postgresql.py:522-527) writes the sent fields as given and never recomputes the price map, so an edited `base_price_usd` leaves the stored prices stale. The document edition has no product-edit route. Product creation and editing are catalog maintenance and are not modelled.
- Promotion discounts are never applied to an order total in either edition, so the model applies none.

=== FILE: carts.dfy ===
/** The cart aggregate shared by both editions: a sequence of lines, the
    merge-by-product add, the filtering remove, totals against the live
    catalog and the line-item snapshot taken at checkout. */
module Carts {
  import opened Outcomes

  type ProductId = string

  /** The product fields the cart and checkout read. */
  datatype Product = Product(name: string, basePriceUsd: real)

  /** The product collection, keyed by product id. */
  type Catalog = map<ProductId, Product>

  /** One cart line. The quantity is whatever the requests summed to: the
      source never forces it to be positive. */
  datatype Line = Line(productId: ProductId, quantity: int, addedAt: int)

  type Cart = seq<Line>

  predicate InCart(cart: Cart, pid: ProductId)
  {
    exists i :: 0 <= i < |cart| && cart[i].productId == pid
  }

  function ProductIds(cart: Cart): set<ProductId>
  {
    set i | 0 <= i < |cart| :: cart[i].productId
  }

  /** At most one line per product. */
  predicate DistinctProducts(cart: Cart)
  {
    forall i, j :: 0 <= i < j < |cart| ==> cart[i].productId != cart[j].productId
  }

  /** The quantity of `pid` summed over every line that holds it. */
  function QuantityOf(cart: Cart, pid: ProductId): int
  {
    if |cart| == 0 then 0
    else (if cart[0].productId == pid then cart[0].quantity else 0) + QuantityOf(cart[1..], pid)
  }

  /** The index of the first line holding `pid`, where the add loop stops. */
  function FirstLine(cart: Cart, pid: ProductId): (r: Option<nat>)
    ensures r.None? <==> !InCart(cart, pid)
    ensures r.Some? ==> r.value < |cart| && cart[r.value].productId == pid
    ensures r.Some? ==> forall j :: 0 <= j < r.value ==> cart[j].productId != pid
  {
    if |cart| == 0 then None
    else if cart[0].productId == pid then Some(0)
    else
      match FirstLine(cart[1..], pid)
      case None => None
      case Some(i) => Some(i + 1)
  }

  /** Add `q` units of `pid` to the cart: the first line holding `pid`
      grows by `q`; with no such line a new line stamped `now` goes at the end. */
  function Merge(cart: Cart, pid: ProductId, q: int, now: int): (r: Cart)
    ensures !InCart(cart, pid) ==> r == cart + [Line(pid, q, now)]
    ensures InCart(cart, pid) ==>
              var i := FirstLine(cart, pid).value;
              r == cart[i := cart[i].(quantity := cart[i].quantity + q)]
  {
    if |cart| == 0 then [Line(pid, q, now)]
    else if cart[0].productId == pid then [cart[0].(quantity := cart[0].quantity + q)] + cart[1..]
    else [cart[0]] + Merge(cart[1..], pid, q, now)
  }

  /** Drop every line holding `pid`; the other lines keep their order. */
  function Remove(cart: Cart, pid: ProductId): (r: Cart)
    ensures !InCart(r, pid)
    ensures forall l :: l in r <==> l in cart && l.productId != pid
    ensures !InCart(cart, pid) ==> r == cart
  {
    if |cart| == 0 then []
    else if cart[0].productId == pid then Remove(cart[1..], pid)
    else [cart[0]] + Remove(cart[1..], pid)
  }

  /** Removing twice is removing once; removing an absent product changes nothing. */
  lemma RemoveIdempotent(cart: Cart, pid: ProductId)
    ensures Remove(Remove(cart, pid), pid) == Remove(cart, pid)
    ensures !InCart(cart, pid) ==> Remove(cart, pid) == cart
  {
  }

  /** Remove filters each part of a cart on its own, so the surviving lines keep their order. */
  lemma {:induction false} RemoveAppend(a: Cart, b: Cart, pid: ProductId)
    ensures Remove(a + b, pid) == Remove(a, pid) + Remove(b, pid)
  {
    if |a| == 0 {
      assert a + b == b;
    } else {
      assert (a + b)[1..] == a[1..] + b;
      RemoveAppend(a[1..], b, pid);
    }
  }

  /** Remove zeroes the quantity of its product and keeps every other quantity. */
  lemma {:induction false} RemoveQuantity(cart: Cart, pid: ProductId, x: ProductId)
    ensures QuantityOf(Remove(cart, pid), x) == if x == pid then 0 else QuantityOf(cart, x)
  {
    if |cart| > 0 {
      RemoveQuantity(cart[1..], pid, x);
      if cart[0].productId != pid {
        assert ([cart[0]] + Remove(cart[1..], pid))[1..] == Remove(cart[1..], pid);
      }
    }
  }

  /** Add grows the quantity of its product by exactly the requested amount
      and leaves every other product's quantity alone. */
  lemma {:induction false} MergeQuantity(cart: Cart, pid: ProductId, q: int, now: int, x: ProductId)
    ensures QuantityOf(Merge(cart, pid, q, now), x) == QuantityOf(cart, x) + (if x == pid then q else 0)
  {
    var r := Merge(cart, pid, q, now);
    if |cart| == 0 {
      assert r[1..] == [];
    } else if cart[0].productId == pid {
      assert r[1..] == cart[1..];
    } else {
      assert r[1..] == Merge(cart[1..], pid, q, now);
      MergeQuantity(cart[1..], pid, q, now, x);
    }
  }

  /** Two adds of the same product give the cart one add of the summed quantity gives. */
  lemma {:induction false} MergeTwice(cart: Cart, pid: ProductId, q1: int, q2: int, t1: int, t2: int)
    ensures Merge(Merge(cart, pid, q1, t1), pid, q2, t2) == Merge(cart, pid, q1 + q2, t1)
  {
    if |cart| == 0 {
    } else if cart[0].productId == pid {
    } else {
      var m := Merge(cart, pid, q1, t1);
      assert m[0] == cart[0] && m[1..] == Merge(cart[1..], pid, q1, t1);
      MergeTwice(cart[1..], pid, q1, q2, t1, t2);
    }
  }

  /** The lines of every other product are exactly what they were before the add. */
  lemma {:induction false} RemoveAfterMerge(cart: Cart, pid: ProductId, q: int, now: int)
    ensures Remove(Merge(cart, pid, q, now), pid) == Remove(cart, pid)
  {
    if |cart| > 0 {
      var m := Merge(cart, pid, q, now);
      assert m[1..] == if cart[0].productId == pid then cart[1..] else Merge(cart[1..], pid, q, now);
      if cart[0].productId != pid {
        RemoveAfterMerge(cart[1..], pid, q, now);
      }
    }
  }

  /** Add brings in `pid` and no other product. */
  lemma MergeProductIds(cart: Cart, pid: ProductId, q: int, now: int)
    ensures ProductIds(Merge(cart, pid, q, now)) == ProductIds(cart) + {pid}
  {
    var r := Merge(cart, pid, q, now);
    if InCart(cart, pid) {
      var i := FirstLine(cart, pid).value;
      assert forall j :: 0 <= j < |cart| ==> r[j].productId == cart[j].productId;
    } else {
      assert r[|cart|].productId == pid;
      assert forall j :: 0 <= j < |cart| ==> r[j] == cart[j];
    }
  }

  /** Add keeps the lines' products pairwise distinct. */
  lemma MergeKeepsDistinct(cart: Cart, pid: ProductId, q: int, now: int)
    requires DistinctProducts(cart)
    ensures DistinctProducts(Merge(cart, pid, q, now))
  {
  }

  /** Remove keeps the lines' products pairwise distinct. */
  lemma {:induction false} RemoveKeepsDistinct(cart: Cart, pid: ProductId)
    requires DistinctProducts(cart)
    ensures DistinctProducts(Remove(cart, pid))
  {
    if |cart| > 0 {
      RemoveKeepsDistinct(cart[1..], pid);
      var rest := Remove(cart[1..], pid);
      forall j | 0 <= j < |rest|
        ensures rest[j].productId != cart[0].productId
      {
        assert rest[j] in cart[1..];
      }
    }
  }

  /** With distinct products, the number of lines is the number of products. */
  lemma {:induction false} DistinctCount(cart: Cart)
    requires DistinctProducts(cart)
    ensures |ProductIds(cart)| == |cart|
  {
    if |cart| > 0 {
      var rest := cart[1..];
      DistinctCount(rest);
      assert ProductIds(cart) == {cart[0].productId} + ProductIds(rest);
      assert cart[0].productId !in ProductIds(rest);
    }
  }

  /** Every line's product is still in the catalog. */
  predicate AllResolve(catalog: Catalog, cart: Cart)
  {
    forall i :: 0 <= i < |cart| ==> cart[i].productId in catalog
  }

  /** The lines whose product is still in the catalog, in cart order. */
  function Resolving(catalog: Catalog, cart: Cart): (kept: Cart)
    ensures |kept| <= |cart|
    ensures forall k :: 0 <= k < |kept| ==> kept[k].productId in catalog
  {
    if |cart| == 0 then []
    else if cart[0].productId in catalog then [cart[0]] + Resolving(catalog, cart[1..])
    else Resolving(catalog, cart[1..])
  }

  /** The filter keeps exactly the lines whose product resolves, and the
      whole cart when every product does. */
  lemma {:induction false} ResolvingMembers(catalog: Catalog, cart: Cart)
    ensures forall l :: l in Resolving(catalog, cart) <==> l in cart && l.productId in catalog
    ensures AllResolve(catalog, cart) ==> Resolving(catalog, cart) == cart
  {
    if |cart| > 0 {
      var rest := cart[1..];
      ResolvingMembers(catalog, rest);
      assert cart == [cart[0]] + rest;
      if cart[0].productId in catalog {
        assert Resolving(catalog, cart) == [cart[0]] + Resolving(catalog, rest);
      } else {
        assert Resolving(catalog, cart) == Resolving(catalog, rest);
      }
    }
  }

  /** The cart total at live prices: price times quantity over the lines
      whose product resolves; a line whose product is gone adds nothing. */
  function ResolvedTotal(catalog: Catalog, cart: Cart): real
  {
    if |cart| == 0 then 0.0
    else
      var l := cart[0];
      (if l.productId in catalog then catalog[l.productId].basePriceUsd * l.quantity as real else 0.0)
      + ResolvedTotal(catalog, cart[1..])
  }

  /** A line-item snapshot: the product's name and price as they were at checkout. */
  datatype OrderItem = OrderItem(
    productId: ProductId,
    productName: string,
    quantity: int,
    pricePerItem: real,
    itemTotal: real)

  /** The snapshot of the item for `l`, which must resolve. */
  predicate SnapshotOf(catalog: Catalog, l: Line, item: OrderItem)
  {
    && l.productId in catalog
    && item.productId == l.productId
    && item.quantity == l.quantity
    && item.productName == catalog[l.productId].name
    && item.pricePerItem == catalog[l.productId].basePriceUsd
    && item.itemTotal == item.pricePerItem * item.quantity as real
  }

  /** The item a line becomes at checkout, priced from `p`. */
  function ItemFor(p: Product, l: Line): OrderItem
  {
    OrderItem(l.productId, p.name, l.quantity, p.basePriceUsd, p.basePriceUsd * l.quantity as real)
  }

  /** One item per resolving line, in cart order; lines whose product is gone are skipped. */
  function Snapshot(catalog: Catalog, cart: Cart): (items: seq<OrderItem>)
    ensures |items| <= |cart|
    ensures |items| == |cart| <==> AllResolve(catalog, cart)
    ensures forall k :: 0 <= k < |items| ==> items[k].productId in catalog
    ensures forall k :: 0 <= k < |items| ==> items[k].itemTotal == items[k].pricePerItem * items[k].quantity as real
    ensures AllResolve(catalog, cart) ==> forall k :: 0 <= k < |items| ==> SnapshotOf(catalog, cart[k], items[k])
    ensures |items| == |Resolving(catalog, cart)|
    ensures forall k :: 0 <= k < |items| ==> SnapshotOf(catalog, Resolving(catalog, cart)[k], items[k])
  {
    if |cart| == 0 then []
    else
      var l := cart[0];
      var rest := Snapshot(catalog, cart[1..]);
      if l.productId in catalog then
        assert Resolving(catalog, cart) == [l] + Resolving(catalog, cart[1..]);
        [ItemFor(catalog[l.productId], l)] + rest
      else
        rest
  }

  /** The sum of the items' totals. */
  function ItemsTotal(items: seq<OrderItem>): real
  {
    if |items| == 0 then 0.0 else items[0].itemTotal + ItemsTotal(items[1..])
  }

  /** Lines whose product is gone add nothing to the total: it is the total
      of the resolving lines alone. */
  lemma {:induction false} ResolvedTotalOfResolving(catalog: Catalog, cart: Cart)
    ensures ResolvedTotal(catalog, cart) == ResolvedTotal(catalog, Resolving(catalog, cart))
  {
    if |cart| > 0 {
      ResolvedTotalOfResolving(catalog, cart[1..]);
      if cart[0].productId in catalog {
        var kept := Resolving(catalog, cart);
        assert kept[0] == cart[0] && kept[1..] == Resolving(catalog, cart[1..]);
      }
    }
  }

  /** The snapshot's items add up to the cart total at the same prices. */
  lemma {:induction false} SnapshotTotal(catalog: Catalog, cart: Cart)
    ensures ItemsTotal(Snapshot(catalog, cart)) == ResolvedTotal(catalog, cart)
  {
    if |cart| > 0 {
      SnapshotTotal(catalog, cart[1..]);
      var items := Snapshot(catalog, cart);
      if cart[0].productId in catalog {
        assert items[1..] == Snapshot(catalog, cart[1..]);
      }
    }
  }

  /** Snapshots of consecutive parts of a cart are consecutive: items come in cart order. */
  lemma {:induction false} SnapshotAppend(catalog: Catalog, a: Cart, b: Cart)
    ensures Snapshot(catalog, a + b) == Snapshot(catalog, a) + Snapshot(catalog, b)
  {
    if |a| == 0 {
      assert a + b == b;
    } else {
      assert (a + b)[0] == a[0];
      assert (a + b)[1..] == a[1..] + b;
      SnapshotAppend(catalog, a[1..], b);
      var sa, sb := Snapshot(catalog, a[1..]), Snapshot(catalog, b);
      if a[0].productId in catalog {
        var item := ItemFor(catalog[a[0].productId], a[0]);
        assert Snapshot(catalog, a + b) == [item] + (sa + sb);
        assert Snapshot(catalog, a) == [item] + sa;
      }
    }
  }

  /** The strict snapshot of the relational edition: any line whose product
      cannot be read aborts the whole request. */
  function StrictSnapshot(catalog: Catalog, cart: Cart): (r: Result<seq<OrderItem>>)
    ensures r.Ok? <==> AllResolve(catalog, cart)
    ensures r.Ok? ==> |r.value| == |cart|
    ensures r.Ok? ==> forall k :: 0 <= k < |cart| ==> SnapshotOf(catalog, cart[k], r.value[k])
    ensures r.Ok? ==> ItemsTotal(r.value) == ResolvedTotal(catalog, cart)
  {
    if AllResolve(catalog, cart) then
      SnapshotTotal(catalog, cart);
      Ok(Snapshot(catalog, cart))
    else
      Err(Internal("cart line refers to a missing product"))
  }
}

=== FILE: document_edition.dfy ===
/** The document-store edition: each user document embeds its cart and
    the list of its orders' storage ids; orders live in their own
    collection. Every handler reads, computes, and writes whole fields
    back. A failed request writes nothing: an `Err` carries no store. */
module DocumentEdition {
  import opened Outcomes
  import opened Money
  import opened Pricing
  import opened Carts
  import opened Orders

  type UserId = string

  /** The storage id the order collection assigns to an inserted order. */
  type OrderRef = string

  /** The fields of a user document the core reads and writes. A missing
      `cart` or `orders` field reads as an empty list, so both are plain
      sequences here. */
  datatype User = User(preferredCurrency: Option<string>, cart: Cart, orders: seq<OrderRef>, updatedAt: int)

  datatype Store = Store(products: Catalog, users: map<UserId, User>, orders: map<OrderRef, Order>)

  /** Every user's cart holds each product at most once. */
  predicate Valid(st: Store)
  {
    forall u :: u in st.users ==> DistinctProducts(st.users[u].cart)
  }

  /** Users other than `uid` are untouched and no user appears or disappears. */
  predicate OthersUnchanged(st: Store, st': Store, uid: UserId)
  {
    && st'.users.Keys == st.users.Keys
    && forall v :: v in st.users && v != uid ==> st'.users[v] == st.users[v]
  }

  // ---------------------------------------------------------------- add

  /** The JSON body of an add request; an absent (or null) field is `None`. */
  datatype AddRequest = AddRequest(productId: Option<string>, quantity: Option<int>)

  /** Python truthiness of the two fields: an empty id or a zero quantity counts as missing. */
  predicate GivenId(f: Option<string>) { f.Some? && f.value != "" }

  predicate GivenQuantity(f: Option<int>) { f.Some? && f.value != 0 }

  /** Whether an add request passes every check of the handler. */
  predicate AddAccepted(st: Store, uid: UserId, req: AddRequest)
  {
    GivenId(req.productId) && GivenQuantity(req.quantity)
    && req.productId.value in st.products && uid in st.users
  }

  datatype CartReply = CartReply(store: Store, cartCount: nat)

  /** POST /cart/add. */
  function AddToCart(st: Store, uid: UserId, req: AddRequest, now: int): (r: Result<CartReply>)
    ensures r.Ok? <==> AddAccepted(st, uid, req)
    ensures !GivenId(req.productId) || !GivenQuantity(req.quantity) ==>
              r == Err(BadRequest("Product ID and quantity required"))
    ensures GivenId(req.productId) && GivenQuantity(req.quantity) && req.productId.value !in st.products ==>
              r == Err(NotFound("Product not found"))
    ensures (GivenId(req.productId) && GivenQuantity(req.quantity) && req.productId.value in st.products
             && uid !in st.users) ==> r == Err(NotFound("User not found"))
    ensures r.Ok? ==> OthersUnchanged(st, r.value.store, uid)
    ensures r.Ok? ==>
              var (pid, q) := (req.productId.value, req.quantity.value);
              var (before, after) := (st.users[uid], r.value.store.users[uid]);
              && after.cart == Merge(before.cart, pid, q, now)
              && QuantityOf(after.cart, pid) == QuantityOf(before.cart, pid) + q
              && Remove(after.cart, pid) == Remove(before.cart, pid)
              && ProductIds(after.cart) == ProductIds(before.cart) + {pid}
              && r.value.cartCount == |after.cart|
              && after == before.(cart := after.cart, updatedAt := now)
              && r.value.store.products == st.products && r.value.store.orders == st.orders
  {
    if !GivenId(req.productId) || !GivenQuantity(req.quantity) then
      Err(BadRequest("Product ID and quantity required"))
    else
      var (pid, q) := (req.productId.value, req.quantity.value);
      if pid !in st.products then Err(NotFound("Product not found"))
      else if uid !in st.users then Err(NotFound("User not found"))
      else
        var u := st.users[uid];
        var cart := Merge(u.cart, pid, q, now);
        MergeQuantity(u.cart, pid, q, now, pid);
        RemoveAfterMerge(u.cart, pid, q, now);
        MergeProductIds(u.cart, pid, q, now);
        Ok(CartReply(st.(users := st.users[uid := u.(cart := cart, updatedAt := now)]), |cart|))
  }

  /** Add keeps every cart free of duplicate products, so the count it
      answers with is the number of distinct products in the cart. */
  lemma AddPreservesValid(st: Store, uid: UserId, req: AddRequest, now: int)
    requires Valid(st)
    requires AddAccepted(st, uid, req)
    ensures Valid(AddToCart(st, uid, req, now).value.store)
    ensures var reply := AddToCart(st, uid, req, now).value;
            reply.cartCount == |ProductIds(reply.store.users[uid].cart)|
  {
    var reply := AddToCart(st, uid, req, now).value;
    MergeKeepsDistinct(st.users[uid].cart, req.productId.value, req.quantity.value, now);
    DistinctCount(reply.store.users[uid].cart);
  }

  /** Adding `q1` then `q2` of a product leaves the same cart as adding
      `q1 + q2` at the time of the first add, provided the sum is not zero. */
  lemma AddAccumulates(st: Store, uid: UserId, pid: ProductId, q1: int, q2: int, t1: int, t2: int)
    requires AddToCart(st, uid, AddRequest(Some(pid), Some(q1)), t1).Ok?
    requires q2 != 0 && q1 + q2 != 0
    ensures var st1 := AddToCart(st, uid, AddRequest(Some(pid), Some(q1)), t1).value.store;
            var two := AddToCart(st1, uid, AddRequest(Some(pid), Some(q2)), t2);
            var one := AddToCart(st, uid, AddRequest(Some(pid), Some(q1 + q2)), t1);
            two.Ok? && one.Ok? && two.value.store.users[uid].cart == one.value.store.users[uid].cart
  {
    MergeTwice(st.users[uid].cart, pid, q1, q2, t1, t2);
  }

  /** Quantities that cancel out: the two adds both succeed, but one add of
      their sum is refused, since a zero quantity counts as missing. */
  lemma AddOfZeroSumRefused(st: Store, uid: UserId, pid: ProductId, q: int, t1: int, t2: int)
    requires q != 0
    requires pid != "" && pid in st.products && uid in st.users
    ensures var first := AddToCart(st, uid, AddRequest(Some(pid), Some(q)), t1);
            first.Ok? && AddToCart(first.value.store, uid, AddRequest(Some(pid), Some(-q)), t2).Ok?
    ensures AddToCart(st, uid, AddRequest(Some(pid), Some(q + -q)), t1)
            == Err(BadRequest("Product ID and quantity required"))
  {
  }

  // ------------------------------------------------------------- remove

  /** DELETE /cart/remove/<product_id>. */
  function RemoveFromCart(st: Store, uid: UserId, pid: ProductId, now: int): (r: Result<CartReply>)
    ensures r.Ok? <==> uid in st.users
    ensures uid !in st.users ==> r == Err(NotFound("User not found"))
    ensures r.Ok? ==> OthersUnchanged(st, r.value.store, uid)
    ensures r.Ok? ==>
              var (before, after) := (st.users[uid], r.value.store.users[uid]);
              && after.cart == Remove(before.cart, pid)
              && !InCart(after.cart, pid)
              && (forall l :: l in after.cart <==> l in before.cart && l.productId != pid)
              && (!InCart(before.cart, pid) ==> after.cart == before.cart)
              && r.value.cartCount == |after.cart|
              && after == before.(cart := after.cart, updatedAt := now)
              && r.value.store.products == st.products && r.value.store.orders == st.orders
  {
    if uid !in st.users then Err(NotFound("User not found"))
    else
      var u := st.users[uid];
      var cart := Remove(u.cart, pid);
      Ok(CartReply(st.(users := st.users[uid := u.(cart := cart, updatedAt := now)]), |cart|))
  }

  /** A second remove of the same product leaves the cart as the first left it. */
  lemma RemoveTwice(st: Store, uid: UserId, pid: ProductId, t1: int, t2: int)
    requires uid in st.users
    ensures var once := RemoveFromCart(st, uid, pid, t1).value;
            var twice := RemoveFromCart(once.store, uid, pid, t2).value;
            twice.store.users[uid].cart == once.store.users[uid].cart
            && twice.cartCount == once.cartCount
  {
  }

  /** Remove keeps every cart free of duplicate products. */
  lemma RemovePreservesValid(st: Store, uid: UserId, pid: ProductId, now: int)
    requires Valid(st)
    requires uid in st.users
    ensures Valid(RemoveFromCart(st, uid, pid, now).value.store)
  {
    RemoveKeepsDistinct(st.users[uid].cart, pid);
  }

  // --------------------------------------------------------------- view

  /** A cart line as shown: enriched with the product when it resolves, as stored otherwise. */
  datatype ViewLine = ViewLine(line: Line, product: Option<Product>)

  datatype CartView = CartView(lines: seq<ViewLine>, totalUsd: real, totalLocal: real, currency: string, symbol: string)

  function ViewLines(catalog: Catalog, cart: Cart): (vs: seq<ViewLine>)
    ensures |vs| == |cart|
    ensures forall i :: 0 <= i < |cart| ==> vs[i].line == cart[i]
    ensures forall i :: 0 <= i < |cart| ==>
              if cart[i].productId in catalog then vs[i].product == Some(catalog[cart[i].productId])
              else vs[i].product == None
  {
    seq(|cart|, i requires 0 <= i < |cart| =>
      ViewLine(cart[i], if cart[i].productId in catalog then Some(catalog[cart[i].productId]) else None))
  }

  /** GET /cart: the cart at live prices, totalled in USD and in the user's preferred currency. */
  function GetCart(st: Store, uid: UserId): (r: Result<CartView>)
    ensures r.Ok? <==> uid in st.users
    ensures uid !in st.users ==> r == Err(NotFound("User not found"))
    ensures r.Ok? ==>
              var u := st.users[uid];
              var usd := ResolvedTotal(st.products, u.cart);
              var code := PreferredCode(u.preferredCurrency);
              && r.value.lines == ViewLines(st.products, u.cart)
              && r.value.totalUsd == Round2(usd)
              && r.value.currency == code
              && r.value.totalLocal == Round2(Convert(usd, code))
              && r.value.symbol == SymbolFor(code)
  {
    if uid !in st.users then Err(NotFound("User not found"))
    else
      var u := st.users[uid];
      var usd := ResolvedTotal(st.products, u.cart);
      var code := PreferredCode(u.preferredCurrency);
      Ok(CartView(ViewLines(st.products, u.cart), Round2(usd), Round2(Convert(usd, code)), code, SymbolFor(code)))
  }

  // ----------------------------------------------------------- checkout

  datatype CheckoutReply = CheckoutReply(store: Store, orderCode: string, orderRef: OrderRef, totalUsd: real, itemsCount: nat)

  /** POST /checkout. `uuidText` is the random UUID the order code is cut
      from and `ref` the storage id the order collection assigns. */
  function Checkout(st: Store, uid: UserId, req: CheckoutRequest, now: int, uuidText: string, ref: OrderRef)
    : (r: Result<CheckoutReply>)
    requires IsUuidText(uuidText)
    requires ref !in st.orders
    ensures r.Ok? <==> uid in st.users && |st.users[uid].cart| > 0
    ensures uid !in st.users ==> r == Err(NotFound("User not found"))
    ensures uid in st.users && |st.users[uid].cart| == 0 ==> r == Err(BadRequest("Cart is empty"))
    ensures r.Ok? ==> OthersUnchanged(st, r.value.store, uid)
    ensures r.Ok? ==>
              var (reply, before) := (r.value, st.users[uid]);
              var after := reply.store.users[uid];
              && reply.orderRef == ref
              && reply.store.orders.Keys == st.orders.Keys + {ref}
              && (forall k :: k in st.orders ==> reply.store.orders[k] == st.orders[k])
              && var o := reply.store.orders[ref];
              && o.items == Snapshot(st.products, before.cart)
              && o.totalUsd == ItemsTotal(o.items) == ResolvedTotal(st.products, before.cart)
              && reply.totalUsd == o.totalUsd
              && reply.itemsCount == |o.items| <= |before.cart|
              && reply.orderCode == o.code && |o.code| == 8
              && o.userId == uid && o.paymentStatus == Pending && o.orderStatus == Processing
              && o == NewOrder(uuidText, uid, o.items, o.totalUsd, req, now)
              && after.cart == []
              && after.orders == before.orders + [ref]
              && after == before.(cart := [], orders := after.orders, updatedAt := now)
              && reply.store.products == st.products
  {
    if uid !in st.users then Err(NotFound("User not found"))
    else
      var u := st.users[uid];
      if |u.cart| == 0 then Err(BadRequest("Cart is empty"))
      else
        var items := Snapshot(st.products, u.cart);
        var total := ResolvedTotal(st.products, u.cart);
        SnapshotTotal(st.products, u.cart);
        var o := NewOrder(uuidText, uid, items, total, req, now);
        var u' := u.(cart := [], orders := u.orders + [ref], updatedAt := now);
        var st' := st.(users := st.users[uid := u'], orders := st.orders[ref := o]);
        Ok(CheckoutReply(st', o.code, ref, total, |items|))
  }

  /** Checkout keeps every cart free of duplicate products. */
  lemma CheckoutPreservesValid(st: Store, uid: UserId, req: CheckoutRequest, now: int, uuidText: string, ref: OrderRef)
    requires Valid(st)
    requires IsUuidText(uuidText) && ref !in st.orders
    requires Checkout(st, uid, req, now, uuidText, ref).Ok?
    ensures Valid(Checkout(st, uid, req, now, uuidText, ref).value.store)
  {
  }

  /** Checking out again with no add in between is refused as an empty
      cart: one cart never becomes two orders. */
  lemma CheckoutTwiceRefused(st: Store, uid: UserId, req1: CheckoutRequest, req2: CheckoutRequest,
                             t1: int, t2: int, uuid1: string, uuid2: string, ref1: OrderRef, ref2: OrderRef)
    requires IsUuidText(uuid1) && IsUuidText(uuid2)
    requires ref1 !in st.orders
    requires Checkout(st, uid, req1, t1, uuid1, ref1).Ok?
    requires ref2 !in Checkout(st, uid, req1, t1, uuid1, ref1).value.store.orders
    ensures Checkout(Checkout(st, uid, req1, t1, uuid1, ref1).value.store, uid, req2, t2, uuid2, ref2)
            == Err(BadRequest("Cart is empty"))
  {
  }

  /** When every product still resolves, the order has exactly one item per
      cart line, in cart order, and the cart view's USD total is the order's total rounded. */
  lemma CheckoutMatchesCartView(st: Store, uid: UserId, req: CheckoutRequest, now: int, uuidText: string, ref: OrderRef)
    requires IsUuidText(uuidText) && ref !in st.orders
    requires Checkout(st, uid, req, now, uuidText, ref).Ok?
    ensures GetCart(st, uid).Ok?
    ensures GetCart(st, uid).value.totalUsd == Round2(Checkout(st, uid, req, now, uuidText, ref).value.totalUsd)
    ensures AllResolve(st.products, st.users[uid].cart) ==>
              var o := Checkout(st, uid, req, now, uuidText, ref).value.store.orders[ref];
              |o.items| == |st.users[uid].cart|
              && forall k :: 0 <= k < |o.items| ==> SnapshotOf(st.products, st.users[uid].cart[k], o.items[k])
  {
  }

  // --------------------------------------------------------- order view

  datatype OrderView = OrderView(order: Order, totalLocal: real, currency: string, symbol: string)

  /** GET /orders/<order_id>: the stored order, its USD total converted at
      the rate of the user's preferred currency as it is now. */
  function GetOrder(st: Store, uid: UserId, ref: OrderRef): (r: Result<OrderView>)
    ensures ref !in st.orders || st.orders[ref].userId != uid ==> r == Err(NotFound("Order not found"))
    ensures ref in st.orders && st.orders[ref].userId == uid && uid !in st.users ==> r.Err? && r.error.Internal?
    ensures r.Ok? <==> ref in st.orders && st.orders[ref].userId == uid && uid in st.users
    ensures r.Ok? ==>
              var code := PreferredCode(st.users[uid].preferredCurrency);
              && r.value.order == st.orders[ref]
              && r.value.currency == code
              && r.value.totalLocal == Convert(st.orders[ref].totalUsd, code)
              && r.value.symbol == SymbolFor(code)
  {
    if ref !in st.orders || st.orders[ref].userId != uid then Err(NotFound("Order not found"))
    else if uid !in st.users then Err(Internal("order refers to a missing user"))
    else
      var o := st.orders[ref];
      var code := PreferredCode(st.users[uid].preferredCurrency);
      Ok(OrderView(o, Convert(o.totalUsd, code), code, SymbolFor(code)))
  }

  /** The snapshot is fixed, the conversion is not: after the user switches
      preferred currency, the same order shows the same items and USD total
      and a local total at the new currency's rate. */
  lemma OrderViewFollowsPreference(st: Store, uid: UserId, ref: OrderRef, c: Currency)
    requires GetOrder(st, uid, ref).Ok?
    ensures var st' := st.(users := st.users[uid := st.users[uid].(preferredCurrency := Some(CodeOf(c)))]);
            var (before, after) := (GetOrder(st, uid, ref).value, GetOrder(st', uid, ref).value);
            && after.order == before.order
            && after.totalLocal == before.order.totalUsd * Rate(c)
            && after.symbol == Symbol(c)
  {
    ConvertIsProduct(st.orders[ref].totalUsd, CodeOf(c));
  }
}

=== FILE: money.dfy ===
/** Exact money arithmetic and the rounding the source applies with
    Python's `round(x, 2)`. Amounts are exact reals; rounding is to the
    nearest cent, an exact half going to the even neighbour. */
module Money {

  /** True when `a` is a whole number of cents. */
  predicate IsCents(a: real)
  {
    a * 100.0 == (a * 100.0).Floor as real
  }

  /** True when `n` is a nearest integer to `y` and, on an exact tie, the even one. */
  predicate RoundsHalfEven(y: real, n: int)
  {
    && -0.5 <= n as real - y <= 0.5
    && ((n as real - y == 0.5 || y - n as real == 0.5) ==> n % 2 == 0)
  }

  /** Some integer meets the half-even rule: the floor of `y` or the integer above it. */
  lemma RoundingExists(y: real)
    ensures exists n :: RoundsHalfEven(y, n)
  {
    var f := y.Floor;
    var frac := y - f as real;
    if frac < 0.5 {
      assert RoundsHalfEven(y, f);
    } else if frac > 0.5 {
      assert RoundsHalfEven(y, f + 1);
    } else if f % 2 == 0 {
      assert RoundsHalfEven(y, f);
    } else {
      assert RoundsHalfEven(y, f + 1);
    }
  }

  /** At most one integer satisfies the half-even rule. */
  lemma RoundingUnique(y: real)
    ensures forall n, m :: RoundsHalfEven(y, n) && RoundsHalfEven(y, m) ==> n == m
  {
  }

  /** The nearest integer to `y`, ties to even. */
  function RoundHalfEven(y: real): (n: int)
    ensures RoundsHalfEven(y, n)
  {
    RoundingExists(y);
    RoundingUnique(y);
    var n :| RoundsHalfEven(y, n);
    n
  }

  /** The half-even rule picks exactly one integer. */
  lemma RoundHalfEvenUnique(y: real, n: int)
    requires RoundsHalfEven(y, n)
    ensures n == RoundHalfEven(y)
  {
  }

  /** Rounding never reverses the order of two values. */
  lemma RoundHalfEvenMonotone(a: real, b: real)
    requires a <= b
    ensures RoundHalfEven(a) <= RoundHalfEven(b)
  {
  }

  /** Dividing by 100 scales a distance of at most one half down to at most half a cent. */
  lemma ScaleToCents(x: real, n: int)
    requires -0.5 <= n as real - x * 100.0 <= 0.5
    ensures -0.005 <= n as real / 100.0 - x <= 0.005
    ensures IsCents(n as real / 100.0)
  {
  }

  /** Round to two decimal places. */
  function Round2(x: real): (r: real)
    ensures -0.005 <= r - x <= 0.005
    ensures IsCents(r)
  {
    var n := RoundHalfEven(x * 100.0);
    ScaleToCents(x, n);
    n as real / 100.0
  }

  /** Rounding to cents is monotone. */
  lemma Round2Monotone(a: real, b: real)
    requires a <= b
    ensures Round2(a) <= Round2(b)
  {
    RoundHalfEvenMonotone(a * 100.0, b * 100.0);
  }

  /** An amount that already is a whole number of cents is left alone. */
  lemma Round2OfCents(a: real)
    requires IsCents(a)
    ensures Round2(a) == a
  {
    var k := (a * 100.0).Floor;
    assert RoundsHalfEven(a * 100.0, k);
    RoundHalfEvenUnique(a * 100.0, k);
  }

  /** A non-negative amount rounds to a non-negative amount. */
  lemma Round2NonNegative(x: real)
    requires 0.0 <= x
    ensures 0.0 <= Round2(x)
  {
  }
}

=== FILE: orders.dfy ===
/** The order record both editions write at checkout, and its short
    human-facing code. */
module Orders {
  import opened Outcomes
  import opened Text
  import opened Carts

  /** The shipping address, stored as the opaque object the client sent. */
  datatype Address = Address(fields: map<string, string>)

  datatype PaymentStatus = Pending | Paid | Failed

  /** Checkout always writes `processing`; admin edits (not modelled) may write other names. */
  datatype OrderStatus = Processing | OtherStatus(name: string)

  datatype Order = Order(
    code: string,
    userId: string,
    items: seq<OrderItem>,
    totalUsd: real,
    shippingAddress: Address,
    paymentMethod: string,
    paymentStatus: PaymentStatus,
    orderStatus: OrderStatus,
    createdAt: int)

  /** The optional fields of a checkout request body. */
  datatype CheckoutRequest = CheckoutRequest(shippingAddress: Option<Address>, paymentMethod: Option<string>)

  predicate IsLowerHex(c: char) { IsDigit(c) || 'a' <= c <= 'f' }

  predicate IsUpperHex(c: char) { IsDigit(c) || 'A' <= c <= 'F' }

  /** The canonical text of a random UUID: 32 lower-case hex digits in
      groups of 8, 4, 4, 4 and 12 joined by hyphens. */
  predicate IsUuidText(s: string)
  {
    && |s| == 36
    && forall i :: 0 <= i < 36 ==>
         if i == 8 || i == 13 || i == 18 || i == 23 then s[i] == '-' else IsLowerHex(s[i])
  }

  /** The order code: the first eight characters of a random UUID, upper-cased. */
  function OrderCode(uuidText: string): (code: string)
    requires IsUuidText(uuidText)
    ensures |code| == 8
    ensures forall i :: 0 <= i < 8 ==> IsUpperHex(code[i])
    ensures Lower(code) == uuidText[..8]
  {
    var prefix := uuidText[..8];
    assert forall i :: 0 <= i < 8 ==> IsLowerHex(prefix[i]);
    LowerUpper(prefix);
    Upper(prefix)
  }

  /** The order checkout writes: given items and total, the request's
      address (empty when absent) and payment method (`card` when absent),
      payment pending, order processing, created now. */
  function NewOrder(uuidText: string, userId: string, items: seq<OrderItem>, totalUsd: real,
                    req: CheckoutRequest, now: int): (o: Order)
    requires IsUuidText(uuidText)
    ensures |o.code| == 8 && Lower(o.code) == uuidText[..8]
    ensures o.userId == userId && o.items == items && o.totalUsd == totalUsd
    ensures o.paymentStatus == Pending && o.orderStatus == Processing
    ensures o.paymentMethod == if req.paymentMethod.Some? then req.paymentMethod.value else "card"
    ensures o.shippingAddress == if req.shippingAddress.Some? then req.shippingAddress.value else Address(map[])
    ensures o.createdAt == now
  {
    Order(
      OrderCode(uuidText),
      userId,
      items,
      totalUsd,
      match req.shippingAddress case Some(a) => a case None => Address(map[]),
      match req.paymentMethod case Some(m) => m case None => "card",
      Pending,
      Processing,
      now)
  }

  /** Two orders get the same code exactly when their UUIDs agree in the
      first eight characters: the code keeps 32 bits of the UUID and nothing else. */
  lemma SameCodeIffSamePrefix(u1: string, u2: string)
    requires IsUuidText(u1) && IsUuidText(u2)
    ensures OrderCode(u1) == OrderCode(u2) <==> u1[..8] == u2[..8]
  {
    if OrderCode(u1) == OrderCode(u2) {
      assert Lower(OrderCode(u1)) == Lower(OrderCode(u2));
    }
  }
}

=== FILE: outcomes.dfy ===
/** Results of the request handlers: a success payload or one error kind.
    Each error kind is answered with one HTTP status: 400, 404 and 500. */
module Outcomes {

  datatype Option<+T> = None | Some(value: T)

  /** The error kinds the two editions produce. `Internal` stands for an
      exception raised while handling the request (a missing JSON key, an
      attribute read on a missing row, a failed constraint at commit): the
      document edition's handlers catch it themselves and answer 500, the
      relational edition leaves it to the framework, which also answers 500. */
  datatype Error =
    | BadRequest(message: string)
    | NotFound(message: string)
    | Internal(message: string)

  datatype Result<+T> = Ok(value: T) | Err(error: Error)
}

=== FILE: pricing.dfy ===
/** The pricing engine: a USD base price turned into one price entry per
    supported currency, from a fixed table of rates, symbols and country
    names; and the read-time conversion of a USD total into a user's
    preferred currency. */
module Pricing {
  import opened Outcomes
  import opened Money

  /** The closed set of supported currencies. */
  datatype Currency = KES | UGX | BIF | CDF

  const AllCurrencies: set<Currency> := {KES, UGX, BIF, CDF}

  /** Units of local currency per US dollar. */
  function Rate(c: Currency): real
  {
    match c
    case KES => 128.5
    case UGX => 3582.34
    case BIF => 2850.0
    case CDF => 2700.0
  }

  function Symbol(c: Currency): string
  {
    match c
    case KES => "KSh"
    case UGX => "USh"
    case BIF => "FBu"
    case CDF => "FC"
  }

  function CountryName(c: Currency): string
  {
    match c
    case KES => "Kenya"
    case UGX => "Uganda"
    case BIF => "Burundi"
    case CDF => "DRC Congo"
  }

  /** The currency code used as a key in requests and stored documents. */
  function CodeOf(c: Currency): string
  {
    match c
    case KES => "KES"
    case UGX => "UGX"
    case BIF => "BIF"
    case CDF => "CDF"
  }

  /** Look a currency code up in the rate table. */
  function ParseCurrency(code: string): (r: Option<Currency>)
    ensures r.Some? ==> CodeOf(r.value) == code
    ensures r.None? ==> forall c: Currency :: CodeOf(c) != code
  {
    if code == "KES" then Some(KES)
    else if code == "UGX" then Some(UGX)
    else if code == "BIF" then Some(BIF)
    else if code == "CDF" then Some(CDF)
    else None
  }

  /** Parsing inverts `CodeOf`. */
  lemma ParseCodeOf(c: Currency)
    ensures ParseCurrency(CodeOf(c)) == Some(c)
  {
  }

  datatype PriceEntry = PriceEntry(amount: real, symbol: string, country: string)

  /** The entry for one currency: the converted amount rounded to cents, with the currency's symbol and country. */
  function EntryFor(baseUsd: real, c: Currency): PriceEntry
  {
    PriceEntry(Round2(baseUsd * Rate(c)), Symbol(c), CountryName(c))
  }

  /** The derived price map stored with a product. */
  function CalculatePrices(baseUsd: real): (prices: map<Currency, PriceEntry>)
    ensures prices.Keys == AllCurrencies
    ensures forall c :: c in prices ==> prices[c].symbol == Symbol(c) && prices[c].country == CountryName(c)
  {
    map[KES := EntryFor(baseUsd, KES), UGX := EntryFor(baseUsd, UGX),
        BIF := EntryFor(baseUsd, BIF), CDF := EntryFor(baseUsd, CDF)]
  }

  /** Each amount is the base price converted at the currency's rate and rounded to cents. */
  lemma PriceAmount(baseUsd: real, c: Currency)
    ensures CalculatePrices(baseUsd)[c].amount == Round2(baseUsd * Rate(c))
  {
  }

  /** The symbol and country of an entry do not depend on the base price. */
  lemma PriceMetadataFixed(base1: real, base2: real, c: Currency)
    ensures CalculatePrices(base1)[c].symbol == CalculatePrices(base2)[c].symbol
    ensures CalculatePrices(base1)[c].country == CalculatePrices(base2)[c].country
  {
  }

  /** Every amount is a whole number of cents within half a cent of the exact conversion. */
  lemma PriceAmountExact(baseUsd: real, c: Currency)
    ensures IsCents(CalculatePrices(baseUsd)[c].amount)
    ensures -0.005 <= CalculatePrices(baseUsd)[c].amount - baseUsd * Rate(c) <= 0.005
  {
  }

  /** A dearer product is never cheaper in any currency, and a non-negative
      base price gives non-negative amounts. */
  lemma PricesMonotone(base1: real, base2: real, c: Currency)
    requires 0.0 <= base1 <= base2
    ensures 0.0 <= CalculatePrices(base1)[c].amount <= CalculatePrices(base2)[c].amount
  {
    var x1, x2 := base1 * Rate(c), base2 * Rate(c);
    assert 0.0 <= x1 <= x2;
    Round2NonNegative(x1);
    Round2Monotone(x1, x2);
    PriceAmount(base1, c);
    PriceAmount(base2, c);
  }

  /** The rate used when a total is shown in a user's preferred currency:
      the table's rate for a known code and 1 for anything else. */
  function RateFor(code: string): (rate: real)
    ensures ParseCurrency(code).None? ==> rate == 1.0
    ensures forall c :: CodeOf(c) == code ==> rate == Rate(c)
  {
    match ParseCurrency(code)
    case Some(c) => Rate(c)
    case None => 1.0
  }

  /** The symbol shown beside a converted total; `$` for an unknown code. */
  function SymbolFor(code: string): (symbol: string)
    ensures ParseCurrency(code).None? ==> symbol == "$"
    ensures forall c :: CodeOf(c) == code ==> symbol == Symbol(c)
  {
    match ParseCurrency(code)
    case Some(c) => Symbol(c)
    case None => "$"
  }

  /** A USD amount in the currency named by `code`, at the read-time rate.
      It is defined by the value it must have, so that a proof about a
      caller sees the converted amount as one value; `ConvertIsProduct`
      states it. */
  function Convert(usd: real, code: string): (local: real)
    ensures ParseCurrency(code).None? ==> local == usd
  {
    var local :| local == usd * RateFor(code);
    local
  }

  /** Conversion multiplies by the rate of the named currency, and by 1 for an unknown code. */
  lemma ConvertIsProduct(usd: real, code: string)
    ensures Convert(usd, code) == usd * RateFor(code)
    ensures forall c :: CodeOf(c) == code ==> Convert(usd, code) == usd * Rate(c)
  {
  }

  /** The preferred currency of a user record: stored value, or KES when absent. */
  function PreferredCode(stored: Option<string>): (code: string)
    ensures stored.Some? ==> code == stored.value
    ensures stored.None? ==> ParseCurrency(code) == Some(KES)
  {
    match stored
    case Some(code) => code
    case None => "KES"
  }

  /** The read-time conversion agrees with the stored price map: converting
      a base price at read time and rounding gives the stored amount. */
  lemma ReadTimeAgreesWithPriceMap(baseUsd: real, c: Currency)
    ensures Round2(baseUsd * RateFor(CodeOf(c))) == CalculatePrices(baseUsd)[c].amount
    ensures SymbolFor(CodeOf(c)) == CalculatePrices(baseUsd)[c].symbol
  {
  }

  /** A code outside the table converts at par and shows a dollar sign. */
  lemma UnknownCurrencyAtPar(code: string, usd: real)
    requires forall c: Currency :: CodeOf(c) != code
    ensures usd * RateFor(code) == usd
    ensures SymbolFor(code) == "$"
  {
  }
}

=== FILE: promotions.dfy ===
/** Promotion-code validation: an ordered chain of checks over the stored
    promotions. Validation answers whether a code is usable; nothing here
    applies a discount to an order. */
module Promotions {
  import opened Outcomes
  import opened Text

  /** A stored promotion. `limit` and `expires` may be unset; times are
      abstract instants, compared as integers. */
  datatype Promotion = Promotion(
    code: string,
    discount: real,
    kind: string,
    status: string,
    uses: int,
    limit: Option<int>,
    expires: Option<int>)

  datatype PromoReply = PromoReply(code: string, discount: real, kind: string)

  predicate IsActiveWithCode(p: Promotion, code: string)
  {
    p.code == code && p.status == "active"
  }

  /** The first active promotion stored under exactly `code`. */
  function FindActive(promos: seq<Promotion>, code: string): (r: Option<Promotion>)
    ensures r.Some? ==> r.value in promos && IsActiveWithCode(r.value, code)
    ensures r.None? <==> forall i :: 0 <= i < |promos| ==> !IsActiveWithCode(promos[i], code)
  {
    if |promos| == 0 then None
    else if IsActiveWithCode(promos[0], code) then Some(promos[0])
    else FindActive(promos[1..], code)
  }

  /** An expiry is set and lies strictly before `now`. */
  predicate Expired(p: Promotion, now: int)
  {
    p.expires.Some? && p.expires.value < now
  }

  /** A limit is set, is not zero (zero reads as no limit), and the uses have reached it. */
  predicate LimitReached(p: Promotion)
  {
    p.limit.Some? && p.limit.value != 0 && p.uses >= p.limit.value
  }

  /** The code a request asks about: the `code` field upper-cased, or the empty string when absent. */
  function RequestedCode(codeField: Option<string>): (code: string)
    ensures forall i :: 0 <= i < |code| ==> !IsLowerLetter(code[i])
    ensures codeField.None? ==> code == ""
    ensures codeField.Some? ==> code == Upper(codeField.value)
  {
    match codeField
    case Some(s) => Upper(s)
    case None => ""
  }

  /** POST /promotions/validate. */
  function ValidatePromoCode(promos: seq<Promotion>, codeField: Option<string>, now: int): (r: Result<PromoReply>)
    ensures var code := RequestedCode(codeField);
            (forall i :: 0 <= i < |promos| ==> !IsActiveWithCode(promos[i], code)) ==>
              r == Err(NotFound("Invalid promo code"))
    ensures var found := FindActive(promos, RequestedCode(codeField));
            && (found.Some? && Expired(found.value, now) ==> r == Err(BadRequest("Promo code expired")))
            && (found.Some? && !Expired(found.value, now) && LimitReached(found.value) ==>
                  r == Err(BadRequest("Promo code limit reached")))
            && (r.Ok? <==> found.Some? && !Expired(found.value, now) && !LimitReached(found.value))
            && (r.Ok? ==> r.value == PromoReply(found.value.code, found.value.discount, found.value.kind))
    ensures r.Ok? ==>
              exists p :: p in promos && IsActiveWithCode(p, RequestedCode(codeField))
                          && !Expired(p, now) && !LimitReached(p)
                          && r.value == PromoReply(p.code, p.discount, p.kind)
  {
    match FindActive(promos, RequestedCode(codeField))
    case None => Err(NotFound("Invalid promo code"))
    case Some(p) =>
      if Expired(p, now) then Err(BadRequest("Promo code expired"))
      else if LimitReached(p) then Err(BadRequest("Promo code limit reached"))
      else Ok(PromoReply(p.code, p.discount, p.kind))
  }

  /** Validation does not depend on the case of the letters sent. */
  lemma ValidateIgnoresCase(promos: seq<Promotion>, s: string, now: int)
    ensures ValidatePromoCode(promos, Some(s), now) == ValidatePromoCode(promos, Some(Upper(s)), now)
  {
    UpperIdempotent(s);
  }

  /** A promotion stored with a lower-case letter in its code is never found. */
  lemma LowerCaseCodeNeverFound(promos: seq<Promotion>, codeField: Option<string>, p: Promotion, now: int)
    requires exists i :: 0 <= i < |p.code| && IsLowerLetter(p.code[i])
    ensures FindActive(promos, RequestedCode(codeField)) != Some(p)
  {
  }

  /** An expired code stays refused at every later instant. */
  lemma ExpiryIsFinal(promos: seq<Promotion>, codeField: Option<string>, now: int, later: int)
    requires now <= later
    requires ValidatePromoCode(promos, codeField, now) == Err(BadRequest("Promo code expired"))
    ensures ValidatePromoCode(promos, codeField, later) == Err(BadRequest("Promo code expired"))
  {
  }
}

=== FILE: relational_edition.dfy ===
/** The relational edition: one cart-items table shared by all users, an
    orders table, and the product table. A user's cart is the set of rows
    carrying the user's id, in table order. Reading a missing product
    through a row's relationship raises, so a cart line whose product is
    gone makes the request fail instead of being skipped. A failed request
    commits nothing: an `Err` carries no store. */
module RelationalEdition {
  import opened Outcomes
  import opened Money
  import opened Carts
  import opened Orders

  type UserId = string

  /** A row of the cart-items table. */
  datatype CartRow = CartRow(userId: UserId, line: Line)

  datatype Store = Store(products: Catalog, users: set<UserId>, cartRows: seq<CartRow>, orders: seq<Order>)

  /** The cart of `uid`: the lines of its rows, in table order. */
  function UserLines(rows: seq<CartRow>, uid: UserId): (cart: Cart)
    ensures |cart| <= |rows|
  {
    if |rows| == 0 then []
    else if rows[0].userId == uid then [rows[0].line] + UserLines(rows[1..], uid)
    else UserLines(rows[1..], uid)
  }

  /** Some row of `uid` holds `pid`. */
  predicate HasRow(rows: seq<CartRow>, uid: UserId, pid: ProductId)
  {
    exists i :: 0 <= i < |rows| && rows[i].userId == uid && rows[i].line.productId == pid
  }

  /** The table after an add: the first row of `uid` holding `pid` grows
      by `q`; with no such row a new row stamped `now` is inserted at the end. */
  function AddRow(rows: seq<CartRow>, uid: UserId, pid: ProductId, q: int, now: int): (rows': seq<CartRow>)
    ensures |rows| <= |rows'| <= |rows| + 1
  {
    if |rows| == 0 then [CartRow(uid, Line(pid, q, now))]
    else if rows[0].userId == uid && rows[0].line.productId == pid then
      [rows[0].(line := rows[0].line.(quantity := rows[0].line.quantity + q))] + rows[1..]
    else [rows[0]] + AddRow(rows[1..], uid, pid, q, now)
  }

  /** A line is in the cart of `uid` exactly when the table has a row of `uid` holding it. */
  lemma {:induction false} UserLinesMembers(rows: seq<CartRow>, uid: UserId)
    ensures forall l :: l in UserLines(rows, uid) <==> CartRow(uid, l) in rows
  {
    if |rows| > 0 {
      UserLinesMembers(rows[1..], uid);
      assert rows == [rows[0]] + rows[1..];
    }
  }

  /** The table grows by one row exactly when `uid` had no row for `pid`,
      and every row of another user or product is kept. */
  lemma {:induction false} AddRowShape(rows: seq<CartRow>, uid: UserId, pid: ProductId, q: int, now: int)
    ensures |AddRow(rows, uid, pid, q, now)| == if HasRow(rows, uid, pid) then |rows| else |rows| + 1
    ensures forall row :: row in rows && (row.userId != uid || row.line.productId != pid) ==>
              row in AddRow(rows, uid, pid, q, now)
  {
    if |rows| > 0 {
      var r := AddRow(rows, uid, pid, q, now);
      if rows[0].userId == uid && rows[0].line.productId == pid {
        assert HasRow(rows, uid, pid);
        assert r[1..] == rows[1..];
      } else {
        AddRowShape(rows[1..], uid, pid, q, now);
        assert r == [rows[0]] + AddRow(rows[1..], uid, pid, q, now);
        assert HasRow(rows, uid, pid) <==> HasRow(rows[1..], uid, pid) by {
          if HasRow(rows, uid, pid) {
            var i :| 0 <= i < |rows| && rows[i].userId == uid && rows[i].line.productId == pid;
            assert rows[1..][i - 1] == rows[i];
          }
          if HasRow(rows[1..], uid, pid) {
            var i :| 0 <= i < |rows[1..]| && rows[1..][i].userId == uid && rows[1..][i].line.productId == pid;
            assert rows[i + 1] == rows[1..][i];
          }
        }
        assert rows == [rows[0]] + rows[1..];
      }
    }
  }

  /** Seen through one user's cart, the row-level add is the cart merge. */
  lemma {:induction false} AddRowIsMerge(rows: seq<CartRow>, uid: UserId, pid: ProductId, q: int, now: int)
    ensures UserLines(AddRow(rows, uid, pid, q, now), uid) == Merge(UserLines(rows, uid), pid, q, now)
  {
    if |rows| > 0 {
      var r := AddRow(rows, uid, pid, q, now);
      if rows[0].userId == uid && rows[0].line.productId == pid {
        assert r[1..] == rows[1..];
      } else {
        assert r[0] == rows[0] && r[1..] == AddRow(rows[1..], uid, pid, q, now);
        AddRowIsMerge(rows[1..], uid, pid, q, now);
      }
    }
  }

  /** An add by `uid` leaves every other user's cart as it was. */
  lemma {:induction false} AddRowKeepsOthers(rows: seq<CartRow>, uid: UserId, pid: ProductId, q: int, now: int, v: UserId)
    requires v != uid
    ensures UserLines(AddRow(rows, uid, pid, q, now), v) == UserLines(rows, v)
  {
    if |rows| > 0 {
      var r := AddRow(rows, uid, pid, q, now);
      if rows[0].userId == uid && rows[0].line.productId == pid {
        assert r[1..] == rows[1..];
      } else {
        assert r[0] == rows[0] && r[1..] == AddRow(rows[1..], uid, pid, q, now);
        AddRowKeepsOthers(rows[1..], uid, pid, q, now, v);
      }
    }
  }

  /** The table after the checkout's bulk delete of the rows of `uid`. */
  function DeleteUserRows(rows: seq<CartRow>, uid: UserId): (rest: seq<CartRow>)
    ensures forall i :: 0 <= i < |rest| ==> rest[i].userId != uid
    ensures forall row :: row in rest <==> row in rows && row.userId != uid
  {
    if |rows| == 0 then []
    else if rows[0].userId == uid then DeleteUserRows(rows[1..], uid)
    else [rows[0]] + DeleteUserRows(rows[1..], uid)
  }

  /** The bulk delete empties the cart of `uid` and only that cart. */
  lemma {:induction false} DeleteUserRowsCarts(rows: seq<CartRow>, uid: UserId, v: UserId)
    ensures UserLines(DeleteUserRows(rows, uid), v) == if v == uid then [] else UserLines(rows, v)
  {
    if |rows| > 0 {
      DeleteUserRowsCarts(rows[1..], uid, v);
      var d := DeleteUserRows(rows, uid);
      if rows[0].userId != uid {
        assert d[0] == rows[0] && d[1..] == DeleteUserRows(rows[1..], uid);
      }
    }
  }

  // ---------------------------------------------------------------- add

  /** The JSON body of an add request; an absent field is `None`. */
  datatype AddRequest = AddRequest(productId: Option<ProductId>, quantity: Option<int>)

  /** POST /cart/add. The quantity is not validated: zero and negative amounts are stored. */
  function AddToCart(st: Store, uid: UserId, req: AddRequest, now: int): (r: Result<Store>)
    ensures req.productId.None? ==> r.Err? && r.error.Internal?
    ensures req.productId.Some? && req.productId.value !in st.products ==> r.Err? && r.error.NotFound?
    ensures req.productId.Some? && req.productId.value in st.products && req.quantity.None? ==>
              r.Err? && r.error.Internal?
    ensures req.productId.Some? && req.productId.value in st.products && req.quantity.Some? && uid !in st.users ==>
              r.Err? && r.error.Internal?
    ensures r.Ok? <==> req.productId.Some? && req.productId.value in st.products && req.quantity.Some? && uid in st.users
    ensures r.Ok? ==>
              var (pid, q) := (req.productId.value, req.quantity.value);
              && UserLines(r.value.cartRows, uid) == Merge(UserLines(st.cartRows, uid), pid, q, now)
              && QuantityOf(UserLines(r.value.cartRows, uid), pid) == QuantityOf(UserLines(st.cartRows, uid), pid) + q
              && (forall v :: v != uid ==> UserLines(r.value.cartRows, v) == UserLines(st.cartRows, v))
              && r.value == st.(cartRows := r.value.cartRows)
  {
    if req.productId.None? then Err(Internal("request body has no product id"))
    else
      var pid := req.productId.value;
      if pid !in st.products then Err(NotFound("no product with this id"))
      else if req.quantity.None? then Err(Internal("request body has no quantity"))
      else if uid !in st.users then Err(Internal("cart row refers to a missing user"))
      else
        var q := req.quantity.value;
        var rows := AddRow(st.cartRows, uid, pid, q, now);
        AddRowIsMerge(st.cartRows, uid, pid, q, now);
        MergeQuantity(UserLines(st.cartRows, uid), pid, q, now, pid);
        assert forall v :: v != uid ==> UserLines(rows, v) == UserLines(st.cartRows, v) by {
          forall v | v != uid
            ensures UserLines(rows, v) == UserLines(st.cartRows, v)
          {
            AddRowKeepsOthers(st.cartRows, uid, pid, q, now, v);
          }
        }
        Ok(st.(cartRows := rows))
  }

  /** Every user's cart holds each product at most once. */
  ghost predicate Valid(st: Store)
  {
    forall u :: DistinctProducts(UserLines(st.cartRows, u))
  }

  /** Add keeps every cart free of duplicate products. */
  lemma AddPreservesValid(st: Store, uid: UserId, req: AddRequest, now: int)
    requires Valid(st)
    requires AddToCart(st, uid, req, now).Ok?
    ensures Valid(AddToCart(st, uid, req, now).value)
  {
  }

  // --------------------------------------------------------------- view

  datatype CartView = CartView(items: seq<OrderItem>, totalUsd: real)

  /** GET /cart: every line with its product's current name and price, and
      the USD total rounded to cents. The user's existence is not checked:
      an unknown user has an empty cart. */
  function GetCart(st: Store, uid: UserId): (r: Result<CartView>)
    ensures r.Ok? <==> AllResolve(st.products, UserLines(st.cartRows, uid))
    ensures r.Err? ==> r.error.Internal?
    ensures r.Ok? ==>
              var cart := UserLines(st.cartRows, uid);
              && |r.value.items| == |cart|
              && (forall k :: 0 <= k < |cart| ==> SnapshotOf(st.products, cart[k], r.value.items[k]))
              && r.value.totalUsd == Round2(ResolvedTotal(st.products, cart))
  {
    var cart := UserLines(st.cartRows, uid);
    match StrictSnapshot(st.products, cart)
    case Err(e) => Err(e)
    case Ok(items) => Ok(CartView(items, Round2(ResolvedTotal(st.products, cart))))
  }

  // ----------------------------------------------------------- checkout

  datatype CheckoutReply = CheckoutReply(store: Store, orderCode: string, totalUsd: real)

  /** An order of the table already carries `code`; the order code column is unique. */
  predicate CodeTaken(orders: seq<Order>, code: string)
  {
    exists i :: 0 <= i < |orders| && orders[i].code == code
  }

  /** POST /checkout. `uuidText` is the random UUID the order code is cut
      from; a code some earlier order already carries fails the commit. */
  function Checkout(st: Store, uid: UserId, req: CheckoutRequest, now: int, uuidText: string): (r: Result<CheckoutReply>)
    requires IsUuidText(uuidText)
    ensures |UserLines(st.cartRows, uid)| == 0 ==> r == Err(BadRequest("Cart is empty"))
    ensures |UserLines(st.cartRows, uid)| > 0 && !AllResolve(st.products, UserLines(st.cartRows, uid)) ==>
              r.Err? && r.error.Internal?
    ensures |UserLines(st.cartRows, uid)| > 0 && CodeTaken(st.orders, OrderCode(uuidText)) ==> r.Err? && r.error.Internal?
    ensures r.Ok? <==> && |UserLines(st.cartRows, uid)| > 0 && AllResolve(st.products, UserLines(st.cartRows, uid))
                       && !CodeTaken(st.orders, OrderCode(uuidText))
    ensures r.Ok? ==>
              var (cart, reply) := (UserLines(st.cartRows, uid), r.value);
              && |reply.store.orders| == |st.orders| + 1
              && reply.store.orders[..|st.orders|] == st.orders
              && var o := reply.store.orders[|st.orders|];
              && |o.items| == |cart|
              && (forall k :: 0 <= k < |cart| ==> SnapshotOf(st.products, cart[k], o.items[k]))
              && o.totalUsd == ItemsTotal(o.items) == reply.totalUsd
              && reply.orderCode == o.code && |o.code| == 8 && !CodeTaken(st.orders, o.code)
              && o.userId == uid && o.paymentStatus == Pending && o.orderStatus == Processing
              && o == NewOrder(uuidText, uid, o.items, o.totalUsd, req, now)
              && UserLines(reply.store.cartRows, uid) == []
              && (forall v :: v != uid ==> UserLines(reply.store.cartRows, v) == UserLines(st.cartRows, v))
              && reply.store.products == st.products && reply.store.users == st.users
  {
    var cart := UserLines(st.cartRows, uid);
    if |cart| == 0 then Err(BadRequest("Cart is empty"))
    else
      match StrictSnapshot(st.products, cart)
      case Err(e) => Err(e)
      case Ok(items) =>
        if CodeTaken(st.orders, OrderCode(uuidText)) then Err(Internal("order code already in use"))
        else
          var total := ResolvedTotal(st.products, cart);
          var o := NewOrder(uuidText, uid, items, total, req, now);
          var rows := DeleteUserRows(st.cartRows, uid);
          DeleteUserRowsCarts(st.cartRows, uid, uid);
          assert forall v :: v != uid ==> UserLines(rows, v) == UserLines(st.cartRows, v) by {
            forall v | v != uid
              ensures UserLines(rows, v) == UserLines(st.cartRows, v)
            {
              DeleteUserRowsCarts(st.cartRows, uid, v);
            }
          }
          var st' := st.(cartRows := rows, orders := st.orders + [o]);
          assert st'.orders[..|st.orders|] == st.orders;
          Ok(CheckoutReply(st', o.code, total))
  }

  /** Checking out again with no add in between is refused as an empty cart. */
  lemma CheckoutTwiceRefused(st: Store, uid: UserId, req1: CheckoutRequest, req2: CheckoutRequest,
                             t1: int, t2: int, uuid1: string, uuid2: string)
    requires IsUuidText(uuid1) && IsUuidText(uuid2)
    requires Checkout(st, uid, req1, t1, uuid1).Ok?
    ensures Checkout(Checkout(st, uid, req1, t1, uuid1).value.store, uid, req2, t2, uuid2)
            == Err(BadRequest("Cart is empty"))
  {
  }

  /** Order codes are pairwise distinct. */
  predicate CodesUnique(orders: seq<Order>)
  {
    forall i, j :: 0 <= i < j < |orders| ==> orders[i].code != orders[j].code
  }

  /** Checkout keeps the order codes of the table pairwise distinct. */
  lemma CheckoutKeepsCodesUnique(st: Store, uid: UserId, req: CheckoutRequest, now: int, uuidText: string)
    requires IsUuidText(uuidText)
    requires CodesUnique(st.orders)
    requires Checkout(st, uid, req, now, uuidText).Ok?
    ensures CodesUnique(Checkout(st, uid, req, now, uuidText).value.store.orders)
  {
    var orders := Checkout(st, uid, req, now, uuidText).value.store.orders;
    var n := |st.orders|;
    forall i, j | 0 <= i < j < |orders|
      ensures orders[i].code != orders[j].code
    {
      if j < n {
        assert orders[i] == st.orders[i] && orders[j] == st.orders[j];
      } else {
        assert orders[i] == st.orders[i];
      }
    }
  }
}

=== FILE: scenarios.dfy ===
/** Whole-flow statements: concrete request sequences and the agreement
    of the two editions. */
module Scenarios {
  import opened Outcomes
  import opened Money
  import opened Pricing
  import opened Carts
  import opened Orders
  import D = DocumentEdition
  import R = RelationalEdition

  const SampleUuid: string := "0f3a9c12-7b4d-4e8a-9c1f-2d6b8e0a4c7e"

  const TwoProducts: Catalog := map["A" := Product("Cream", 10.0), "B" := Product("Serum", 5.0)]

  const Fresh: D.Store := D.Store(TwoProducts, map["u" := D.User(Some("KES"), [], [], 0)], map[])

  /** Product A at 10.00 USD twice and then product B at 5.00 USD once: two lines, in that order. */
  lemma ShillingsCartFilled()
    ensures var r1 := D.AddToCart(Fresh, "u", D.AddRequest(Some("A"), Some(2)), 1);
            r1.Ok? &&
            var r2 := D.AddToCart(r1.value.store, "u", D.AddRequest(Some("B"), Some(1)), 2);
            r2.Ok? && r2.value.store == Fresh.(users := map["u" := D.User(Some("KES"), [Line("A", 2, 1), Line("B", 1, 2)], [], 2)])
  {
    var r1 := D.AddToCart(Fresh, "u", D.AddRequest(Some("A"), Some(2)), 1);
    assert Merge([], "A", 2, 1) == [Line("A", 2, 1)];
    assert r1.value.store == Fresh.(users := map["u" := D.User(Some("KES"), [Line("A", 2, 1)], [], 1)]);
    assert Merge([Line("A", 2, 1)], "B", 1, 2) == [Line("A", 2, 1), Line("B", 1, 2)];
    var r2 := D.AddToCart(r1.value.store, "u", D.AddRequest(Some("B"), Some(1)), 2);
    assert r2.value.store.users["u"] == D.User(Some("KES"), [Line("A", 2, 1), Line("B", 1, 2)], [], 2);
    assert r2.value.store.users == map["u" := D.User(Some("KES"), [Line("A", 2, 1), Line("B", 1, 2)], [], 2)];
  }

  const Filled: D.Store := Fresh.(users := map["u" := D.User(Some("KES"), [Line("A", 2, 1), Line("B", 1, 2)], [], 2)])

  /** That cart totals 25.00 USD, and checking it out records 25.00 USD over two items;
      the order's detail view then shows 3212.50 in Kenyan shillings. */
  lemma CheckoutInShillings()
    ensures var view := D.GetCart(Filled, "u");
            view.Ok? && view.value.totalUsd == 25.0
    ensures IsUuidText(SampleUuid) &&
            var co := D.Checkout(Filled, "u", CheckoutRequest(None, None), 3, SampleUuid, "o1");
            co.Ok? && co.value.totalUsd == 25.0 && co.value.itemsCount == 2 &&
            var detail := D.GetOrder(co.value.store, "u", "o1");
            detail.Ok? && detail.value.totalLocal == 3212.5 && detail.value.symbol == "KSh"
  {
  }

  /** Adding one unit of X and then three more leaves a single line for X holding four. */
  lemma AddSameProductTwice()
    ensures
      var st := D.Store(map["X" := Product("Mask", 25.75)], map["u" := D.User(None, [], [], 0)], map[]);
      var r1 := D.AddToCart(st, "u", D.AddRequest(Some("X"), Some(1)), 1);
      r1.Ok? &&
      var r2 := D.AddToCart(r1.value.store, "u", D.AddRequest(Some("X"), Some(3)), 2);
      r2.Ok? && r2.value.store.users["u"].cart == [Line("X", 4, 1)] && r2.value.cartCount == 1
  {
  }

  /** A negative quantity passes the add's only check, so a cart, and the
      order made from it, can total less than zero. */
  lemma NegativeQuantityAccepted()
    ensures
      var st := D.Store(map["X" := Product("Mask", 25.75)], map["u" := D.User(None, [], [], 0)], map[]);
      var r := D.AddToCart(st, "u", D.AddRequest(Some("X"), Some(-2)), 1);
      r.Ok? && ResolvedTotal(st.products, r.value.store.users["u"].cart) == -51.5
  {
  }

  /** When every product of the cart still exists, the two editions check
      out the same cart into the same items and the same total; the
      relational edition alone refuses a code an earlier order carries. */
  lemma EditionsAgreeOnCheckout(ds: D.Store, rs: R.Store, uid: string, req: CheckoutRequest, now: int,
                                uuidText: string, ref: string)
    requires IsUuidText(uuidText) && ref !in ds.orders
    requires uid in ds.users && ds.users[uid].cart == R.UserLines(rs.cartRows, uid)
    requires ds.products == rs.products
    requires |ds.users[uid].cart| > 0 && AllResolve(ds.products, ds.users[uid].cart)
    ensures D.Checkout(ds, uid, req, now, uuidText, ref).Ok?
    ensures R.Checkout(rs, uid, req, now, uuidText).Ok? <==> !R.CodeTaken(rs.orders, OrderCode(uuidText))
    ensures R.Checkout(rs, uid, req, now, uuidText).Ok? ==>
            var (d, r) := (D.Checkout(ds, uid, req, now, uuidText, ref).value,
                           R.Checkout(rs, uid, req, now, uuidText).value);
            && d.store.orders[ref] == r.store.orders[|rs.orders|]
            && d.totalUsd == r.totalUsd && d.orderCode == r.orderCode
  {
  }
}

=== FILE: text.dfy ===
/** ASCII case mapping, used for promotion codes and order codes. */
module Text {

  predicate IsLowerLetter(c: char) { 'a' <= c <= 'z' }

  predicate IsUpperLetter(c: char) { 'A' <= c <= 'Z' }

  predicate IsDigit(c: char) { '0' <= c <= '9' }

  function UpperChar(c: char): (u: char)
    ensures !IsLowerLetter(u)
    ensures IsLowerLetter(c) ==> IsUpperLetter(u)
    ensures !IsLowerLetter(c) ==> u == c
  {
    if IsLowerLetter(c) then (c as int - 32) as char else c
  }

  function LowerChar(c: char): (l: char)
    ensures !IsUpperLetter(l)
    ensures IsUpperLetter(c) ==> IsLowerLetter(l)
    ensures !IsUpperLetter(c) ==> l == c
  {
    if IsUpperLetter(c) then (c as int + 32) as char else c
  }

  /** Upper-case every ASCII letter of `s`; every other character is kept. */
  function Upper(s: string): (u: string)
    ensures |u| == |s|
    ensures forall i :: 0 <= i < |u| ==> !IsLowerLetter(u[i])
    ensures forall i :: 0 <= i < |u| ==> u[i] == UpperChar(s[i])
  {
    seq(|s|, i requires 0 <= i < |s| => UpperChar(s[i]))
  }

  /** Lower-case every ASCII letter of `s`. */
  function Lower(s: string): (l: string)
    ensures |l| == |s|
    ensures forall i :: 0 <= i < |l| ==> !IsUpperLetter(l[i])
    ensures forall i :: 0 <= i < |l| ==> l[i] == LowerChar(s[i])
  {
    seq(|s|, i requires 0 <= i < |s| => LowerChar(s[i]))
  }

  /** Upper-casing twice is upper-casing once. */
  lemma UpperIdempotent(s: string)
    ensures Upper(Upper(s)) == Upper(s)
  {
  }

  /** A string with no upper-case letters is recovered from its upper-cased form. */
  lemma LowerUpper(s: string)
    requires forall i :: 0 <= i < |s| ==> !IsUpperLetter(s[i])
    ensures Lower(Upper(s)) == s
  {
  }
}
